=== FILE: README.md ===
# SRTify backend, modelled in Dafny

SRTify takes an uploaded audio or video file, has the `whisper` command-line
transcriber translate it into English subtitles, and serves the resulting
SubRip (`.srt`) file. The backend (`backend/main.py`) does four things, and
this project models each over an abstract filesystem, a `set<string>` of file
paths:

- **Upload validation** (`allowed_file`, `SUPPORTED_EXTENSIONS`): the name
  must contain a `.`, and the text after its last `.`, lower-cased, must be
  one of `mp4`, `mkv`, `mov`, `mp3`, `wav`, `m4a`.
- **Upload admission** (`upload_file`): a fresh id, the input path
  `uploads/<id>.<ext>` and the artifact path `subtitles/<id>.srt`; the
  input is written and a `run_whisper` job is queued.
- **Artifact resolution and cleanup** (`run_whisper`): after the transcriber
  exits, the handler takes the expected output `<base>.srt`, or an artifact
  already in place, or else the *first* `.srt` file the directory listing
  shows. It then deletes the input on a best-effort basis.
- **Queries** (`status_srt`, `download_srt`): "done" and a served file both
  mean exactly that the id's artifact path exists.

Modules follow those pieces: `Text` (the `rfind`, `endswith` and `lower`
primitives), `Paths` (`os.path.join`, `dirname`, `basename` and `splitext`
after CPython's posixpath, plus the two job paths), `Upload`, `Whisper`,
`Queries`, and `Lifecycle`. `Lifecycle` follows one job from upload through
`run_whisper` to the queries. Handlers are pure functions that return a
reply together with the new filesystem.

Things outside the program are parameters:
- the transcriber run is an `EngineRun`: it fails with a message, or it
  succeeds having created some set of files;
- the order of `os.listdir` is a `listing` sequence, tied to the filesystem
  by `Whisper.ListsDir`;
- the outcome of writing the input is a `WriteOutcome`;
- whether `os.remove` succeeds is the boolean `removed`;
- the uuid is the id argument; `Upload.IsUuid4Text` describes what
  `str(uuid.uuid4())` looks like.

Three facts about the code shape the model:
- the input file is deleted only on the success path; a failed job leaves
  its input in place;
- jobs do not own disjoint files: the fallback branch of `run_whisper` can
  rename another job's finished artifact (`Lifecycle.FallbackStealsOtherArtifact`);
- there is no progress or transcript store and no SubRip formatter in the
  code, so neither is modelled. The `whisper` command writes the `.srt`
  file itself.

## Model

| member | source | states |
|---|---|---|
| Text.LastIndexOf | backend/main.py:31 | the index of the last occurrence of a character, -1 exactly when it does not occur; no later position holds it (what `rsplit(".", 1)` splits at) |
| Upload.ExtensionOf | backend/main.py:31 | `rsplit(".", 1)[1]` is a dot-free suffix of the name immediately preceded by a `.` |
| Upload.ExtensionOfSplit | backend/main.py:31 | for any name stem + "." + ext with a dot-free ext, the extracted extension is exactly ext |
| Text.Lower | backend/main.py:31 | lower-casing keeps the length, leaves no ASCII capital, turns each capital into its small letter and KELVIN SIGN into 'k', and keeps every other character |
| Upload.AllowedFile | backend/main.py:28-31 | `allowed_file` holds iff the name is stem + "." + ext with ext dot-free and lower-casing to one of the six supported extensions (both directions) |
| Upload.AcceptedExamples | backend/main.py:30-31 | "a.MP4" is accepted (the comparison is case-insensitive), and so is "x.txt.mp4" (only the text after the last dot counts) |
| Upload.LastDotRefuses | backend/main.py:30-31 | "a.mp4.txt" is refused: a supported extension before the last dot does not help |
| Upload.RefusesMissingExtension | backend/main.py:30-31 | "noext" (no dot) and "file." (empty extension) are refused |
| Upload.KelvinSignAccepted | backend/main.py:87-91 | "a.m\u212Av" is accepted and stored as "mkv", because `str.lower` turns KELVIN SIGN into 'k' |
| Upload.AdmittedExtension | backend/main.py:87-91 | the extension stored for an admitted name is the lower-cased text after the name's last `.` (the name is stem + "." + e with e dot-free and the result `Lower(e)`); it is in `SUPPORTED_EXTENSIONS` and contains neither `.` nor `/` |
| Upload.Uuid4IsPlainName | backend/main.py:90 | a uuid4 text has no `/` and no `.` and is not empty |
| Upload.Admit | backend/main.py:90-98 | after validation: accepted iff the write succeeded, a job is queued iff accepted, the job gets `InputPath(id, ext)` and `ArtifactPath(id)`, the only path that can appear is the input (also when the copy fails after the open), failures are 500 |
| Upload.UploadFile | backend/main.py:84-101 | as written: accepted iff the name is allowed and the write succeeded; a job is queued iff accepted, with the id's artifact path as output; every error is 500, including the refusal, whose text is "Upload failed: 400: Unsupported file type."; a refused name writes nothing |
| Upload.UploadFileIntended | backend/main.py:87-89 | corrected handler: a refused name is answered 400 "Unsupported file type." and writes nothing; admitted names behave as written |
| Upload.IntendedAgreesOnAllowed | backend/main.py:86-101 | the as-written and corrected handlers give the same result iff the name is allowed |
| Upload.NotesTxtAnswered500 | backend/main.py:87-101 | as written, "notes.txt" is answered 500 "Upload failed: 400: Unsupported file type."; the corrected handler answers 400 "Unsupported file type." |
| Upload.UnsupportedAnswered500 | backend/main.py:87-101 | for every refused name the as-written handler answers 500 where the corrected one answers 400 |
| Paths.Join | backend/main.py:47 | `os.path.join` ends with its second part, and a relative second part keeps the first part in front |
| Paths.Basename | backend/main.py:46 | the base name has no `/`, is a suffix of the path, and is either the whole path or preceded by a `/` |
| Paths.Dirname | backend/main.py:44 | `os.path.dirname` is a prefix of the path, empty exactly when the path has no `/`, and only slashes separate it from the base name; it ends in `/` only when it is all slashes, and then it reaches the base name (trailing slashes are dropped from any other head) |
| Paths.StripExtension | backend/main.py:46 | `splitext(...)[0]` is a prefix of the path; when it is shorter it stops at the last `.`, which lies in the final component after some character other than `.`; when it is the whole path, no `.` of the final component follows a character other than `.` |
| Paths.GeneratedPath | backend/main.py:46-47 | the expected transcriber output ends in ".srt" |
| Paths.GeneratedPathName | backend/main.py:44-47 | the expected output's base name is the input's base name with its extension replaced by ".srt", and for a slash-free non-empty output directory its `dirname` is that directory |
| Paths.BasenameOfJoin | backend/main.py:47 | `basename` gives back a slash-free name joined onto any directory |
| Paths.InputPath | backend/main.py:92 | for a slash-free id and extension, the input path splits back into `uploads` and "<id>.<ext>" |
| Paths.ArtifactPath | backend/main.py:93 | the artifact path ends in ".srt"; for a slash-free id, the artifact path splits back into `subtitles` and "<id>.srt" |
| Paths.SplitJoin | backend/main.py:44-47 | `dirname` and `basename` undo `join` of a slash-free directory and a slash-free name |
| Paths.JoinInjective | backend/main.py:93 | under a relative directory, distinct names join to distinct paths |
| Paths.ArtifactPathInjective | backend/main.py:93 | the artifact path depends only on the id, and distinct ids (any strings) give distinct artifact paths |
| Paths.InputNeverArtifact | backend/main.py:92-93 | an input path is never any id's artifact path |
| Paths.StripAppendedExtension | backend/main.py:46 | `splitext` of "<id>.<ext>" yields the id when ext is dot- and slash-free and the id has a character other than `.` |
| Paths.UploadPathsNeedNoRename | backend/main.py:44-51 | for the paths an upload builds, the transcriber's expected output `generated` equals `output_path`, so no rename is performed |
| Paths.EmptyIdNeedsRename | backend/main.py:46-47 | with an empty id the two differ ("subtitles/.mp4.srt" against "subtitles/.srt"), so the non-empty uuid is what makes them agree |
| Whisper.SrtFiles | backend/main.py:55 | the filtered list holds exactly the listed names ending in ".srt", and its first element is the first such name in listing order |
| Whisper.SrtFilesNonEmptyIff | backend/main.py:55-56 | the ".srt" filter of a directory listing is non-empty iff the directory holds a ".srt" file |
| Whisper.Resolve | backend/main.py:44-62 | an existing `generated` is renamed onto the artifact path, or kept when it is that path; otherwise an existing artifact is kept; on success the artifact path exists, and either nothing changed or exactly one existing ".srt" file other than the artifact was renamed onto it |
| Whisper.FirstSrtFallback | backend/main.py:55-62 | the last resort fails iff the listing shows no ".srt" file; otherwise the directory's first listed ".srt" file, which exists and is not the artifact, is renamed onto the artifact path |
| Whisper.RenameFrames | backend/main.py:51 | a rename changes no path other than its source and destination |
| Whisper.NotGeneratedIff | backend/main.py:48-62 | resolution fails ("SRT file not generated.") iff neither `generated` nor `output_path` exists and the subtitle directory has no ".srt" file |
| Whisper.ResolveFramesOthers | backend/main.py:48-59 | every file other than the artifact and the renamed source is present after resolution iff it was before |
| Whisper.FallbackTakesFirstSrt | backend/main.py:55-59 | with neither expected file present, the ".srt" name at any listing position j with none before it, whoever owns it, is renamed onto the artifact path |
| Whisper.NoRenameWhenInPlace | backend/main.py:48-51 | when `generated` is `output_path` and it exists, resolution leaves the filesystem unchanged |
| Whisper.RunWhisper | backend/main.py:33-72 | a raise keeps every file (the input is not deleted) and carries the transcriber's error, the `FileNotFoundError` of `os.listdir("")` when the output path has no directory part, or "SRT file not generated."; completion needs a clean transcriber run and a non-empty output directory, removes the input when the deletion succeeds, and leaves the artifact present unless the input path was the artifact; a completed job's files are exactly those resolution left, less the input when it was deleted |
| Whisper.CleanupIsBestEffort | backend/main.py:64-69 | a failed deletion of the input never changes whether the job completes, and only differs in keeping the input |
| Whisper.RaisesIff | backend/main.py:34-72 | `run_whisper` raises iff the transcriber failed, the output path has no directory part (`os.listdir("")` at line 45 raises), or nothing was found; on that path an existing input stays |
| Queries.StatusOf | backend/main.py:113-121 | status is "done" iff the id's artifact path `subtitles/<id>.srt` exists, which is iff the download of the same id would serve a file |
| Queries.DownloadOf | backend/main.py:104-111 | a file is served iff the id's artifact path exists; a served download is an existing ".srt" file, as text/plain, named "<id>.srt"; otherwise the answer is 404 "SRT not ready yet." |
| Queries.StatusMatchesDownload | backend/main.py:104-121 | status is "done" iff the download succeeds, and the file served is the id's artifact path |
| Queries.QueriesLookOnlyAtArtifact | backend/main.py:104-121 | two filesystems that agree on the id's artifact get the same status and download answer |
| Queries.IdsDoNotShareArtifacts | backend/main.py:113-121 | removing one id's artifact never changes another id's status |
| Lifecycle.QueuedJob | backend/main.py:90-97 | the job an accepted upload queued, with the lower-cased text after the name's last `.` as its supported, dot-free, slash-free extension |
| Lifecycle.FreshUploadIsProcessing | backend/main.py:90-121 | right after an accepted upload under a fresh uuid, status is "processing" and download is not ready |
| Lifecycle.RefusedUploadLeavesNoTrace | backend/main.py:87-101 | a refused name queues no job and changes no id's status |
| Lifecycle.StatusReportsCompletion | backend/main.py:33-121 | for a queued job whose artifact is absent when it runs, status afterwards is "done" (and download succeeds) iff `run_whisper` completed; a failed job looks like one still processing |
| Lifecycle.JobOutputInPlace | backend/main.py:44-69 | for upload-built paths with the artifact among the created files, `run_whisper` completes with no rename, keeps every file but the deleted input, and status is "done" |
| Lifecycle.TranscriberOutputIsTheArtifact | backend/main.py:44-69 | when the transcriber wrote its usual output, the job completes with no rename: the result is the files before plus those created, less the input when its deletion succeeds, and status is "done" |
| Lifecycle.ResolveTakesOtherArtifact | backend/main.py:55-59 | when this job's artifact is missing and another id's "<id>.srt" is listed first, resolution renames that artifact, which is not this job's, onto this job's artifact path |
| Lifecycle.JobStealsOtherArtifact | backend/main.py:55-59 | if a job's expected output and artifact are missing and another job's artifact is listed first, the job completes by taking it, and the other id's status goes from "done" back to "processing" |
| Lifecycle.FallbackStealsOtherArtifact | backend/main.py:55-59 | the same hazard, stated for the job an accepted upload queued |

## Findings

| source | as written | input that shows it | evidently intended | confidence | as-written member | corrected member |
|---|---|---|---|---|---|---|
| backend/main.py:87-101 | the `HTTPException(400)` raised for an unsupported name is caught by the handler's own `except Exception` and re-raised as 500 "Upload failed: 400: Unsupported file type." | filename "notes.txt" | the 400 "Unsupported file type." reaches the client | high; not executed | Upload.NotesTxtAnswered500 | Upload.UploadFileIntended |

The two handlers agree on every admitted name (`Upload.IntendedAgreesOnAllowed`).
The lifecycle lemmas are about admitted uploads, so they hold for both.
They are stated against `Upload.UploadFile`. The exact 500 text assumes
Starlette's `str()` of an `HTTPException`, which is "<status>: <detail>".

## Left out

- Text.Lower: lowers only 'A'..'Z' and KELVIN SIGN (U+212A, which lowers to 'k'). Other characters are kept unchanged, although Python lowers all Unicode letters. Python can even change the length: LATIN CAPITAL LETTER I WITH DOT ABOVE (U+0130) lowers to the two characters "i\u0307", while the model keeps one character. None of Python's other lower-case results is an ASCII letter, and every supported extension is ASCII. So an extension with such a character is refused both in Python and in the model. Admission and the stored extension are therefore modelled exactly.
- Whisper.Resolve: a path string stands for the file it names, and `os.path.exists` is membership in the set of paths. The operating system would also resolve other spellings of the same file, such as `subtitles//x.srt` or `subtitles/./x.srt`; the model does not. The model is exact for paths written in one canonical spelling, with no `.` or `..` components and no repeated `/`. That is how backend/main.py:92-93 builds every path it passes to `run_whisper`.
- Whisper.NotGeneratedIff: its iff holds for canonically spelled paths only, for the reason given under `Whisper.Resolve`. For an aliased output path such as `subtitles/./x.srt` with `subtitles/x.srt` present, the model reports failure where Python finds the file.
- Whisper.RaisesIff: like `Whisper.NotGeneratedIff`, it is stated over path spellings. For an aliased output path the model can raise "SRT file not generated." where Python completes. The paths the upload handler builds are canonical, so this never arises from backend/main.py:92-97.
- The `whisper` invocation and the transcription itself (backend/main.py:36-43): the run is an opaque `EngineRun`. Files the command may leave behind when it fails are not modelled.
- The debug `os.listdir` at backend/main.py:45 raising because the subtitle directory is missing. The directory is created at startup (backend/main.py:25-26), which is not modelled. The other way it raises, an output path without a `/` whose directory is "", is modelled. The filesystem holds files only, so subdirectories that `os.listdir` would also report are left out.
- Failures of `os.rename` and `os.path.exists`. Rename is modelled as "remove the source, add the destination".
- File contents: the filesystem is a set of names. That a stolen artifact holds another job's subtitles therefore cannot be stated; the model only says which file was moved.
- `shutil.copyfileobj` byte copying. Only its failure is modelled, and that failure leaves the opened input file behind.
- `uuid.uuid4` generation: the id is a parameter. Freshness is a precondition where it matters (the artifact path of the id is absent).
- A missing filename (`file.filename` being `None` raises inside `allowed_file` and also ends as 500): the filename is always a string here.
- FastAPI routing, CORS, the request-logging middleware (backend/main.py:74-82), `FileResponse` streaming, and all `logging` calls.
- `BackgroundTasks` and concurrency: one job runs at a time over a shared directory state. Other jobs appear only as the state a job starts from.
- frontend/src/app/page.tsx: browser UI and polling, presentation only.

=== FILE: lifecycle.dfy ===
/** One job end to end over a shared directory state: an admitted upload,
    later the background `run_whisper` for it, and the two queries. Other
    jobs may have changed the filesystem in between; each lemma says what
    it needs of the state the job runs in. */
module Lifecycle {
  import opened Text
  import opened Paths
  import opened Upload
  import opened Whisper
  import opened Queries

  /** The job an accepted upload queued, with the extension it was stored
      under. */
  lemma QueuedJob(fs: set<string>, filename: string, fileId: string, write: WriteOutcome)
      returns (ext: string)
    requires AllowedFile(filename) && write == Written
    ensures exists stem, e :: filename == stem + "." + e && '.' !in e && ext == Lower(e)
    ensures ext in SupportedExtensions && '.' !in ext && '/' !in ext
    ensures UploadFile(fs, filename, fileId, write).scheduled
      == Some(Job(InputPath(fileId, ext), ArtifactPath(fileId)))
    ensures UploadFile(fs, filename, fileId, write).fs == fs + {InputPath(fileId, ext)}
  {
    ext := AdmittedExtension(filename);
  }

  /** Right after an accepted upload under a fresh id, status says
      "processing" and download answers 404. */
  lemma FreshUploadIsProcessing(fs: set<string>, filename: string, fileId: string, write: WriteOutcome)
    requires IsUuid4Text(fileId)
    requires ArtifactPath(fileId) !in fs
    requires AllowedFile(filename) && write == Written
    ensures StatusOf(UploadFile(fs, filename, fileId, write).fs, fileId) == Processing
    ensures DownloadOf(UploadFile(fs, filename, fileId, write).fs, fileId).NotReady?
  {
    var ext := QueuedJob(fs, filename, fileId, write);
    Uuid4IsPlainName(fileId);
    InputNeverArtifact(fileId, ext, fileId);
  }

  /** A refused name leaves no trace: no file, no job, and every id's status
      is what it was. */
  lemma RefusedUploadLeavesNoTrace(fs: set<string>, filename: string, fileId: string, write: WriteOutcome, other: string)
    requires !AllowedFile(filename)
    ensures UploadFile(fs, filename, fileId, write).scheduled.None?
    ensures StatusOf(UploadFile(fs, filename, fileId, write).fs, other) == StatusOf(fs, other)
  {
  }

  /** For a queued job whose artifact is not yet present when it runs, the
      status afterwards is "done" exactly when `run_whisper` completed: a
      failed job looks like one still processing. */
  lemma StatusReportsCompletion(fs: set<string>, filename: string, fileId: string, write: WriteOutcome,
                                fs0: set<string>, engine: EngineRun, listing: seq<string>, removed: bool)
    requires IsUuid4Text(fileId)
    requires AllowedFile(filename) && write == Written
    requires ArtifactPath(fileId) !in fs0
    requires engine.EngineOk? ==> ListsDir(fs0 + engine.created, Dirname(ArtifactPath(fileId)), listing)
    ensures var job := UploadFile(fs, filename, fileId, write).scheduled.value;
      var o := RunWhisper(fs0, job.inputPath, job.outputPath, engine, listing, removed);
      (StatusOf(o.fs, fileId) == Done <==> o.Completed?)
      && (DownloadOf(o.fs, fileId).Served? <==> o.Completed?)
  {
    var ext := QueuedJob(fs, filename, fileId, write);
    Uuid4IsPlainName(fileId);
    var job := Job(InputPath(fileId, ext), ArtifactPath(fileId));
    InputNeverArtifact(fileId, ext, fileId);
    RaisesIff(fs0, job.inputPath, job.outputPath, engine, listing, removed);
    var o := RunWhisper(fs0, job.inputPath, job.outputPath, engine, listing, removed);
    StatusMatchesDownload(o.fs, fileId);
  }

  /** When the transcriber wrote its usual output, the job completes
      without renaming anything: the files afterwards are those before plus
      what the transcriber created, less the input when it could be deleted. */
  lemma JobOutputInPlace(fileId: string, ext: string, fs0: set<string>,
                         created: set<string>, listing: seq<string>, removed: bool)
    requires '/' !in fileId && HasNonDot(fileId)
    requires '/' !in ext && '.' !in ext
    requires ArtifactPath(fileId) in created
    requires ListsDir(fs0 + created, SrtDir, listing)
    ensures var after := fs0 + created;
      var o := RunWhisper(fs0, InputPath(fileId, ext), ArtifactPath(fileId), EngineOk(created), listing, removed);
      && o == Completed(if removed then after - {InputPath(fileId, ext)} else after)
      && StatusOf(o.fs, fileId) == Done
  {
    var input, output := InputPath(fileId, ext), ArtifactPath(fileId);
    var after := fs0 + created;
    assert Resolve(after, input, output, listing) == Resolved(after, None) by {
      UploadPathsNeedNoRename(fileId, ext);
    }
    InputNeverArtifact(fileId, ext, fileId);
  }

  /** The same, stated for the job an accepted upload queued. */
  lemma TranscriberOutputIsTheArtifact(fs: set<string>, filename: string, fileId: string, write: WriteOutcome,
                                       fs0: set<string>, created: set<string>, listing: seq<string>, removed: bool)
    requires IsUuid4Text(fileId)
    requires AllowedFile(filename) && write == Written
    requires ArtifactPath(fileId) in created
    requires ListsDir(fs0 + created, Dirname(ArtifactPath(fileId)), listing)
    ensures var job := UploadFile(fs, filename, fileId, write).scheduled.value;
      var after := fs0 + created;
      RunWhisper(fs0, job.inputPath, job.outputPath, EngineOk(created), listing, removed)
        == Completed(if removed then after - {job.inputPath} else after)
    ensures var job := UploadFile(fs, filename, fileId, write).scheduled.value;
      var o := RunWhisper(fs0, job.inputPath, job.outputPath, EngineOk(created), listing, removed);
      StatusOf(o.fs, fileId) == Done
  {
    var ext := QueuedJob(fs, filename, fileId, write);
    Uuid4IsPlainName(fileId);
    JobOutputInPlace(fileId, ext, fs0, created, listing, removed);
  }

  /** Resolution for this job renames `other`'s artifact onto this job's
      artifact path when the listing starts with `other`'s file. */
  lemma ResolveTakesOtherArtifact(fileId: string, ext: string, other: string,
                                  after: set<string>, listing: seq<string>)
    requires '/' !in fileId && HasNonDot(fileId) && '/' !in other && fileId != other
    requires '/' !in ext && '.' !in ext
    requires ArtifactPath(fileId) !in after
    requires ListsDir(after, SrtDir, listing)
    requires |listing| > 0 && listing[0] == other + ".srt"
    ensures var stolen := ArtifactPath(other);
      && stolen != ArtifactPath(fileId)
      && Resolve(after, InputPath(fileId, ext), ArtifactPath(fileId), listing)
         == Resolved(Rename(after, stolen, ArtifactPath(fileId)), Some(stolen))
  {
    var input, output := InputPath(fileId, ext), ArtifactPath(fileId);
    UploadPathsNeedNoRename(fileId, ext);
    EndsWithAppend(other, ".srt");
    FallbackTakesFirstSrt(after, input, output, listing, 0);
    if ArtifactPath(other) == output { ArtifactPathInjective(other, fileId); }
  }

  /** The fallback branch can take another job's finished artifact: when
      this job's expected output and artifact are both missing and the first
      ".srt" listed belongs to job `other`, this job completes with that
      file and `other` goes back to "processing". */
  lemma JobStealsOtherArtifact(fileId: string, ext: string, other: string, fs0: set<string>,
                               created: set<string>, listing: seq<string>, removed: bool)
    requires '/' !in fileId && HasNonDot(fileId) && '/' !in other && fileId != other
    requires '/' !in ext && '.' !in ext
    requires ArtifactPath(fileId) !in fs0 + created
    requires ArtifactPath(other) in fs0 + created
    requires ListsDir(fs0 + created, SrtDir, listing)
    requires |listing| > 0 && listing[0] == other + ".srt"
    ensures var o := RunWhisper(fs0, InputPath(fileId, ext), ArtifactPath(fileId), EngineOk(created), listing, removed);
      && o.Completed?
      && StatusOf(fs0 + created, other) == Done
      && StatusOf(o.fs, other) == Processing
      && StatusOf(o.fs, fileId) == Done
  {
    var input, output, stolen := InputPath(fileId, ext), ArtifactPath(fileId), ArtifactPath(other);
    var moved := Rename(fs0 + created, stolen, output);
    ResolveTakesOtherArtifact(fileId, ext, other, fs0 + created, listing);
    InputNeverArtifact(fileId, ext, other);
    InputNeverArtifact(fileId, ext, fileId);
    CompletesWithResolution(fs0, input, output, created, listing, removed, Resolved(moved, Some(stolen)));
    var o := RunWhisper(fs0, input, output, EngineOk(created), listing, removed);
    assert stolen !in o.fs && output in o.fs by {
      assert o.fs == if removed then moved - {input} else moved;
      RenameFrames(fs0 + created, stolen, output, stolen);
    }
  }

  /** The same hazard, stated for the job an accepted upload queued. */
  lemma FallbackStealsOtherArtifact(fs: set<string>, filename: string, fileId: string, write: WriteOutcome,
                                    other: string, fs0: set<string>, created: set<string>,
                                    listing: seq<string>, removed: bool)
    requires IsUuid4Text(fileId) && IsUuid4Text(other) && fileId != other
    requires AllowedFile(filename) && write == Written
    requires ArtifactPath(fileId) !in fs0 + created
    requires ArtifactPath(other) in fs0 + created
    requires ListsDir(fs0 + created, Dirname(ArtifactPath(fileId)), listing)
    requires |listing| > 0 && listing[0] == other + ".srt"
    ensures var job := UploadFile(fs, filename, fileId, write).scheduled.value;
      var o := RunWhisper(fs0, job.inputPath, job.outputPath, EngineOk(created), listing, removed);
      && o.Completed?
      && StatusOf(fs0 + created, other) == Done
      && StatusOf(o.fs, other) == Processing
      && StatusOf(o.fs, fileId) == Done
  {
    var ext := QueuedJob(fs, filename, fileId, write);
    Uuid4IsPlainName(fileId);
    Uuid4IsPlainName(other);
    JobStealsOtherArtifact(fileId, ext, other, fs0, created, listing, removed);
  }
}

=== FILE: paths.dfy ===
/** Path arithmetic of the backend: `os.path.join`, `dirname`, `basename`
    and the root half of `splitext`, following CPython's posixpath, and the
    two paths every job is given (an input under `uploads`, an artifact
    under `subtitles`). */
module Paths {
  import opened Text

  const UploadDir: string := "uploads"
  const SrtDir: string := "subtitles"

  /** `os.path.join(a, b)`: an absolute `b` replaces `a`; otherwise one '/'
      separates them unless `a` is empty or already ends in '/'. Either way
      `b` ends the result, and a relative `b` keeps `a` in front. */
  function Join(a: string, b: string): (r: string)
    ensures EndsWith(r, b)
    ensures (|b| == 0 || b[0] != '/') ==> |a| <= |r| && r[..|a|] == a
  {
    if |b| > 0 && b[0] == '/' then b
    else if |a| == 0 || a[|a| - 1] == '/' then EndsWithAppend(a, b); a + b
    else EndsWithAppend(a + "/", b); a + "/" + b
  }

  /** `os.path.basename(p)`: the whole final component, everything after
      the last '/'. */
  function Basename(p: string): (r: string)
    ensures '/' !in r
    ensures EndsWith(p, r)
    ensures |r| == |p| || p[|p| - |r| - 1] == '/'
  {
    p[LastIndexOf(p, '/') + 1..]
  }

  predicate AllSlashes(s: string) {
    forall k :: 0 <= k < |s| ==> s[k] == '/'
  }

  /** `s.rstrip('/')`: the longest prefix not ending in '/'; only slashes
      are dropped. */
  function RStripSlashes(s: string): (r: string)
    ensures r <= s
    ensures |r| == 0 || r[|r| - 1] != '/'
    ensures AllSlashes(s[|r|..])
    ensures !AllSlashes(s) ==> |r| > 0
  {
    if |s| > 0 && s[|s| - 1] == '/' then RStripSlashes(s[..|s| - 1]) else s
  }

  /** `os.path.dirname(p)`: everything up to the last '/', with trailing
      slashes dropped unless the head consists of slashes only. The path is
      then the directory, some separating slashes, and the base name; the
      directory ends in '/' only when it is that all-slash head. */
  function Dirname(p: string): (r: string)
    ensures r <= p
    ensures '/' !in p ==> r == ""
    ensures '/' in p ==> |r| > 0
    ensures |r| <= |p| - |Basename(p)| && AllSlashes(p[|r|..|p| - |Basename(p)|])
    ensures |r| > 0 && r[|r| - 1] == '/' ==> AllSlashes(r)
    ensures AllSlashes(r) ==> |r| == |p| - |Basename(p)|
  {
    var head := p[..LastIndexOf(p, '/') + 1];
    if |head| > 0 && !AllSlashes(head) then RStripSlashes(head) else head
  }

  /** `os.path.splitext(p)[0]`: cut at the last '.' of the final component,
      except that a component whose dots are all leading (".bashrc", "...")
      keeps its name whole. A result equal to the path means no '.' of the
      final component follows a character other than '.'. */
  function StripExtension(p: string): (r: string)
    ensures r <= p
    ensures r != p ==>
      && p[|r|] == '.'
      && (forall k :: |r| < k < |p| ==> p[k] != '.' && p[k] != '/')
      && (exists k :: LastIndexOf(p, '/') < k < |r| && p[k] != '.')
    ensures r == p ==>
      forall k, d :: LastIndexOf(p, '/') < k < d < |p| && p[d] == '.' ==> p[k] == '.'
  {
    var sep := LastIndexOf(p, '/');
    var dot := LastIndexOf(p, '.');
    if dot > sep && exists k | sep < k < dot :: p[k] != '.' then p[..dot] else p
  }

  /** A name with at least one character other than '.'. */
  predicate HasNonDot(s: string) {
    exists k | 0 <= k < |s| :: s[k] != '.'
  }

  /** The upload's stored input, `os.path.join(UPLOAD_DIR, f"{file_id}.{ext}")`;
      for a slash-free id and extension it splits back into the upload
      directory and the name it was built from. */
  function InputPath(fileId: string, ext: string): (r: string)
    ensures '/' !in fileId && '/' !in ext ==>
      Dirname(r) == UploadDir && Basename(r) == fileId + "." + ext
  {
    var name := fileId + "." + ext;
    assert '/' !in fileId && '/' !in ext ==>
      Dirname(Join(UploadDir, name)) == UploadDir && Basename(Join(UploadDir, name)) == name by {
      if '/' !in fileId && '/' !in ext {
        assert '/' !in name by { assert '/' !in "."; }
        SplitJoin(UploadDir, name);
      }
    }
    Join(UploadDir, name)
  }

  /** The job's subtitle artifact, `os.path.join(SRT_DIR, f"{file_id}.srt")`;
      upload, status and download all derive it this way. For a slash-free
      id it splits back into the subtitle directory and "<id>.srt". */
  function ArtifactPath(fileId: string): (r: string)
    ensures EndsWith(r, ".srt")
    ensures '/' !in fileId ==> Dirname(r) == SrtDir && Basename(r) == fileId + ".srt"
  {
    var name := fileId + ".srt";
    EndsWithAppend(fileId, ".srt");
    EndsWithTransitive(Join(SrtDir, name), name, ".srt");
    assert '/' !in fileId ==>
      Dirname(Join(SrtDir, name)) == SrtDir && Basename(Join(SrtDir, name)) == name by {
      if '/' !in fileId {
        SrtNameIsPlain(fileId);
        SplitJoin(SrtDir, name);
      }
    }
    Join(SrtDir, name)
  }

  /** A slash-free id gives a slash-free "<id>.srt". */
  lemma SrtNameIsPlain(fileId: string)
    requires '/' !in fileId
    ensures '/' !in fileId + ".srt"
  {
    var srt := ".srt";
    assert srt[0] == '.' && srt[1] == 's' && srt[2] == 'r' && srt[3] == 't';
  }

  /** Where the transcriber is expected to leave its output: inside the
      artifact's directory, named after the input's base name with ".srt" in
      place of its extension. */
  function GeneratedPath(inputPath: string, outputPath: string): (r: string)
    ensures EndsWith(r, ".srt")
  {
    var name := StripExtension(Basename(inputPath)) + ".srt";
    EndsWithAppend(StripExtension(Basename(inputPath)), ".srt");
    EndsWithTransitive(Join(Dirname(outputPath), name), name, ".srt");
    Join(Dirname(outputPath), name)
  }

  /** The expected output's final component is the input's base name with
      its extension replaced by ".srt", and it sits in the artifact's
      directory. */
  lemma GeneratedPathName(inputPath: string, outputPath: string)
    ensures Basename(GeneratedPath(inputPath, outputPath)) == StripExtension(Basename(inputPath)) + ".srt"
    ensures |Dirname(outputPath)| > 0 && '/' !in Dirname(outputPath) ==>
      Dirname(GeneratedPath(inputPath, outputPath)) == Dirname(outputPath)
  {
    var b := Basename(inputPath);
    var root := StripExtension(b);
    assert '/' !in root by {
      forall k | 0 <= k < |root| ensures root[k] != '/' {
        assert root[k] == b[k];
      }
    }
    SrtNameIsPlain(root);
    var name := root + ".srt";
    BasenameOfJoin(Dirname(outputPath), name);
    if |Dirname(outputPath)| > 0 && '/' !in Dirname(outputPath) {
      SplitJoin(Dirname(outputPath), name);
    }
  }

  /** The final component of a join with a slash-free name is that name. */
  lemma BasenameOfJoin(dir: string, name: string)
    requires |name| > 0 && '/' !in name
    ensures Basename(Join(dir, name)) == name
  {
    var p := Join(dir, name);
    var k := |p| - |name|;
    assert p[k..] == name;
    assert k == 0 || p[k - 1] == '/' by {
      if |dir| > 0 && dir[|dir| - 1] == '/' {
        assert p == dir + name;
      } else if |dir| > 0 {
        assert p == dir + "/" + name;
      }
    }
    assert forall j :: k <= j < |p| ==> p[j] == name[j - k];
  }

  /** Joining a slash-free name onto a slash-free directory can be undone by
      `dirname` and `basename`. */
  lemma SplitJoin(dir: string, name: string)
    requires |dir| > 0 && '/' !in dir && '/' !in name
    ensures Dirname(Join(dir, name)) == dir
    ensures Basename(Join(dir, name)) == name
  {
    var p := Join(dir, name);
    assert p == dir + "/" + name;
    var i := LastIndexOf(p, '/');
    assert p[|dir|] == '/';
    assert forall j :: |dir| < j < |p| ==> p[j] == name[j - |dir| - 1];
    assert i == |dir|;
    var head := p[..i + 1];
    assert head == dir + "/";
    assert head[0] != '/';
    assert RStripSlashes(head) == RStripSlashes(dir);
    assert dir[|dir| - 1] != '/';
    assert p[i + 1..] == name;
  }

  /** Under a relative directory, different names join to different
      paths. */
  lemma JoinInjective(dir: string, x: string, y: string)
    requires |dir| > 0 && dir[0] != '/'
    requires Join(dir, x) == Join(dir, y)
    ensures x == y
  {
    var p := Join(dir, x);
    var xAbs, yAbs := |x| > 0 && x[0] == '/', |y| > 0 && y[0] == '/';
    assert p[0] == '/' <==> xAbs;
    assert p[0] == '/' <==> yAbs;
    if !xAbs {
      var sep := if dir[|dir| - 1] == '/' then 0 else 1;
      assert p == dir + (if sep == 0 then "" else "/") + x;
      assert p == dir + (if sep == 0 then "" else "/") + y;
      assert x == p[|dir| + sep..] == y;
    }
  }

  /** Distinct file ids never share an artifact path. */
  lemma ArtifactPathInjective(a: string, b: string)
    requires ArtifactPath(a) == ArtifactPath(b)
    ensures a == b
  {
    var na, nb := a + ".srt", b + ".srt";
    JoinInjective(SrtDir, na, nb);
    assert a == na[..|na| - 4];
    assert b == nb[..|nb| - 4];
  }

  /** An input path (whose id has no '/') is never an artifact path, so
      removing a job's input can never remove any job's artifact. */
  lemma InputNeverArtifact(fileId: string, ext: string, other: string)
    requires '/' !in fileId
    ensures InputPath(fileId, ext) != ArtifactPath(other)
  {
    var name := fileId + "." + ext;
    assert name[0] != '/' by {
      if |fileId| > 0 { assert name[0] == fileId[0]; } else { assert name[0] == '.'; }
    }
    assert InputPath(fileId, ext)[0] == 'u';
    var a := other + ".srt";
    if |a| > 0 && a[0] == '/' {
      assert ArtifactPath(other)[0] == '/';
    } else {
      assert ArtifactPath(other)[0] == 's';
    }
  }

  /** `splitext` drops exactly the extension an upload appended, provided
      the id has some character other than '.'. */
  lemma StripAppendedExtension(fileId: string, ext: string)
    requires '/' !in fileId && '/' !in ext && '.' !in ext
    requires HasNonDot(fileId)
    ensures StripExtension(fileId + "." + ext) == fileId
  {
    var p := fileId + "." + ext;
    assert '/' !in p by {
      forall k | 0 <= k < |p| ensures p[k] != '/' {
        if k < |fileId| { assert p[k] == fileId[k]; }
        else if k > |fileId| { assert p[k] == ext[k - |fileId| - 1]; }
      }
    }
    var dot := LastIndexOf(p, '.');
    assert p[|fileId|] == '.';
    assert forall j :: |fileId| < j < |p| ==> p[j] == ext[j - |fileId| - 1];
    assert dot == |fileId|;
    var k :| 0 <= k < |fileId| && fileId[k] != '.';
    assert p[k] != '.';
    assert p[..dot] == fileId;
  }

  /** For the paths an upload builds, the transcriber's expected output is
      the artifact path itself, so resolution never needs to rename. */
  lemma UploadPathsNeedNoRename(fileId: string, ext: string)
    requires '/' !in fileId && HasNonDot(fileId)
    requires '/' !in ext && '.' !in ext
    ensures GeneratedPath(InputPath(fileId, ext), ArtifactPath(fileId)) == ArtifactPath(fileId)
  {
    StripAppendedExtension(fileId, ext);
  }

  /** An empty id breaks that agreement: "." + ext counts as a name without
      an extension, so the transcriber's output would be
      "subtitles/." + ext + ".srt" while the artifact path is "subtitles/.srt". */
  lemma EmptyIdNeedsRename(ext: string)
    requires '/' !in ext && '.' !in ext
    ensures GeneratedPath(InputPath("", ext), ArtifactPath("")) != ArtifactPath("")
  {
    var name := "" + "." + ext;
    assert forall j :: 0 < j < |name| ==> name[j] == ext[j - 1];
    assert LastIndexOf(name, '.') == 0;
    assert StripExtension(name) == name;
    var generated := Join(SrtDir, name + ".srt");
    assert |generated| == |SrtDir| + 1 + |name| + 4;
    assert |ArtifactPath("")| == |SrtDir| + 1 + 4;
  }
}

=== FILE: queries.dfy ===
/** The read-only endpoints `/status/{file_id}` and `/download/{file_id}`.
    Both look only at whether the id's artifact path exists; neither
    returns a filesystem, so neither can change one. */
module Queries {
  import opened Text
  import opened Paths

  datatype Status = Done | Processing

  /** `status_srt(file_id)`: "done" exactly when the id's artifact exists,
      which is exactly when the download of the same id would serve a file. */
  function StatusOf(fs: set<string>, fileId: string): (r: Status)
    ensures r == Done <==> ArtifactPath(fileId) in fs
    ensures r == Done <==> DownloadOf(fs, fileId).Served?
  {
    if ArtifactPath(fileId) in fs then Done else Processing
  }

  const NotReadyDetail: string := "SRT not ready yet."

  /** A served file (`FileResponse`) or an HTTP error. */
  datatype DownloadReply =
    | Served(path: string, mediaType: string, filename: string)
    | NotReady(status: int, detail: string)

  /** `download_srt(file_id)`: a file is served exactly when the id's
      artifact exists; otherwise the answer is 404. */
  function DownloadOf(fs: set<string>, fileId: string): (r: DownloadReply)
    ensures r.Served? <==> ArtifactPath(fileId) in fs
    ensures r.Served? ==> r.path in fs && EndsWith(r.path, ".srt")
    ensures r.Served? ==> r.mediaType == "text/plain" && r.filename == fileId + ".srt"
    ensures r.NotReady? ==> r == NotReady(404, NotReadyDetail)
  {
    var path := ArtifactPath(fileId);
    if path !in fs then NotReady(404, NotReadyDetail)
    else Served(path, "text/plain", fileId + ".srt")
  }

  /** "done" and a successful download coincide, in both directions, and
      they serve the very file whose presence the status reports. */
  lemma StatusMatchesDownload(fs: set<string>, fileId: string)
    ensures StatusOf(fs, fileId) == Done <==> DownloadOf(fs, fileId).Served?
    ensures DownloadOf(fs, fileId).Served? ==> DownloadOf(fs, fileId).path == ArtifactPath(fileId)
  {
  }

  /** The answer for one id depends on nothing but that id's artifact: two
      filesystems that agree on it answer alike. */
  lemma QueriesLookOnlyAtArtifact(fs: set<string>, fs': set<string>, fileId: string)
    requires ArtifactPath(fileId) in fs <==> ArtifactPath(fileId) in fs'
    ensures StatusOf(fs, fileId) == StatusOf(fs', fileId)
    ensures DownloadOf(fs, fileId) == DownloadOf(fs', fileId)
  {
  }

  /** Distinct ids are answered from distinct files, so one job's artifact
      never makes another id report "done". */
  lemma IdsDoNotShareArtifacts(fs: set<string>, a: string, b: string)
    requires a != b
    requires ArtifactPath(a) in fs
    ensures StatusOf(fs - {ArtifactPath(a)}, b) == StatusOf(fs, b)
  {
    var pa, pb := ArtifactPath(a), ArtifactPath(b);
    if pa == pb {
      ArtifactPathInjective(a, b);
    }
    assert pb in fs - {pa} <==> pb in fs;
  }
}

=== FILE: text.dfy ===
/** String primitives the backend leans on, over `seq<char>`: a small
    Option type, Python's `str.rfind` for one character, `str.endswith`,
    and the part of `str.lower` that can matter for ASCII extensions. */
module Text {

  datatype Option<+T> = None | Some(value: T)

  /** Index of the last occurrence of `c` in `s`, or -1 when there is none
      (`s.rfind(c)`). */
  function LastIndexOf(s: string, c: char): (r: int)
    ensures -1 <= r < |s|
    ensures r == -1 <==> c !in s
    ensures r >= 0 ==> s[r] == c
    ensures forall j :: r < j < |s| ==> s[j] != c
  {
    if |s| == 0 then -1
    else if s[|s| - 1] == c then |s| - 1
    else LastIndexOf(s[..|s| - 1], c)
  }

  /** `s.endswith(suffix)` */
  predicate EndsWith(s: string, suffix: string) {
    |suffix| <= |s| && s[|s| - |suffix|..] == suffix
  }

  lemma EndsWithAppend(prefix: string, suffix: string)
    ensures EndsWith(prefix + suffix, suffix)
  {
    assert (prefix + suffix)[|prefix|..] == suffix;
  }

  lemma EndsWithTransitive(s: string, t: string, u: string)
    requires EndsWith(s, t) && EndsWith(t, u)
    ensures EndsWith(s, u)
  {
    assert s[|s| - |u|..] == t[|t| - |u|..];
  }

  /** One character of `str.lower()`. Python lowers every Unicode letter;
      the only lower-case results that are ASCII letters come from 'A'..'Z'
      and from KELVIN SIGN (U+212A), which lowers to 'k'. Every other
      character is kept as is here: its real lower-case form is not ASCII,
      so it can never complete one of the (ASCII) upload extensions. */
  function LowerChar(c: char): char {
    if 'A' <= c <= 'Z' then (c as int + 32) as char
    else if c == '\U{212A}' then 'k'
    else c
  }

  /** `s.lower()`, character by character: no ASCII capital is left, each
      capital becomes its small letter, KELVIN SIGN becomes 'k', and every
      other character stays where it was. */
  function Lower(s: string): (r: string)
    ensures |r| == |s|
    ensures forall i :: 0 <= i < |r| ==> !('A' <= r[i] <= 'Z')
    ensures forall i {:trigger r[i]} :: 0 <= i < |s| && 'A' <= s[i] <= 'Z' ==> r[i] as int == s[i] as int + 32
    ensures forall i {:trigger r[i]} :: 0 <= i < |s| && s[i] == '\U{212A}' ==> r[i] == 'k'
    ensures forall i {:trigger r[i]} :: 0 <= i < |s| && !('A' <= s[i] <= 'Z') && s[i] != '\U{212A}' ==> r[i] == s[i]
  {
    seq(|s|, i requires 0 <= i < |s| => LowerChar(s[i]))
  }

  /** Lower-casing never produces a '.' or '/' that was not there: the
      characters the path code splits on survive `Lower` unchanged. */
  lemma LowerKeepsSeparators(s: string)
    ensures ('.' in Lower(s)) <==> ('.' in s)
    ensures ('/' in Lower(s)) <==> ('/' in s)
  {
    var r := Lower(s);
    if '.' in r {
      var i :| 0 <= i < |r| && r[i] == '.';
      assert s[i] == '.';
    }
    if '.' in s {
      var i :| 0 <= i < |s| && s[i] == '.';
      assert r[i] == '.';
    }
    if '/' in r {
      var i :| 0 <= i < |r| && r[i] == '/';
      assert s[i] == '/';
    }
    if '/' in s {
      var i :| 0 <= i < |s| && s[i] == '/';
      assert r[i] == '/';
    }
  }
}

=== FILE: upload.dfy ===
/** The `/upload` handler: extension validation (`allowed_file`), the two
    paths derived from a fresh id, the write of the input file and the
    scheduling of the transcription job. */
module Upload {
  import opened Text
  import opened Paths

  /** `SUPPORTED_EXTENSIONS` */
  const SupportedExtensions: set<string> := {"mp4", "mkv", "mov", "mp3", "wav", "m4a"}

  /** `filename.rsplit(".", 1)[1]`: the text after the last '.'. */
  function ExtensionOf(filename: string): (ext: string)
    requires '.' in filename
    ensures '.' !in ext
    ensures |ext| < |filename| && filename[|filename| - |ext| - 1] == '.'
    ensures filename[|filename| - |ext|..] == ext
  {
    filename[LastIndexOf(filename, '.') + 1..]
  }

  /** `allowed_file(filename)`: the name splits as stem + "." + ext with a
      dot-free ext that lower-cases to a supported extension. */
  function AllowedFile(filename: string): (ok: bool)
    ensures ok <==>
      exists stem, ext :: filename == stem + "." + ext && '.' !in ext && Lower(ext) in SupportedExtensions
  {
    var ok := '.' in filename && Lower(ExtensionOf(filename)) in SupportedExtensions;
    if ok then
      var ext := ExtensionOf(filename);
      assert filename == filename[..|filename| - |ext| - 1] + "." + ext;
      ok
    else
      assert !exists stem, ext :: filename == stem + "." + ext && '.' !in ext && Lower(ext) in SupportedExtensions by {
        if exists stem, ext :: filename == stem + "." + ext && '.' !in ext && Lower(ext) in SupportedExtensions {
          var stem, ext :| filename == stem + "." + ext && '.' !in ext && Lower(ext) in SupportedExtensions;
          ExtensionOfSplit(stem, ext);
        }
      }
      ok
  }

  /** The extension an admitted upload is stored under,
      `file.filename.rsplit(".", 1)[1].lower()`: the lower-cased text after
      the name's last '.', which is a supported extension. */
  function AdmittedExtension(filename: string): (ext: string)
    requires AllowedFile(filename)
    ensures exists stem, e :: filename == stem + "." + e && '.' !in e && ext == Lower(e)
    ensures ext in SupportedExtensions
    ensures '.' !in ext && '/' !in ext
  {
    var e := ExtensionOf(filename);
    assert filename == filename[..|filename| - |e| - 1] + "." + e;
    LowerKeepsSeparators(e);
    Lower(e)
  }

  /** Splitting at a '.' followed by a dot-free tail finds that tail. */
  lemma ExtensionOfSplit(stem: string, ext: string)
    requires '.' !in ext
    ensures '.' in stem + "." + ext
    ensures ExtensionOf(stem + "." + ext) == ext
  {
    var name := stem + "." + ext;
    assert name[|stem|] == '.';
    assert forall j :: |stem| < j < |name| ==> name[j] == ext[j - |stem| - 1];
    assert LastIndexOf(name, '.') == |stem|;
    assert name[|stem| + 1..] == ext;
  }

  /** "MP4" lower-cases to the supported "mp4". */
  lemma Mp4Supported()
    ensures Lower("MP4") == "mp4" && Lower("mp4") == "mp4"
    ensures "mp4" in SupportedExtensions
  {
    var e, m := "MP4", "mp4";
    assert Lower(e)[0] == LowerChar(e[0]) && Lower(e)[1] == LowerChar(e[1]) && Lower(e)[2] == LowerChar(e[2]);
    assert Lower(m)[0] == LowerChar(m[0]) && Lower(m)[1] == LowerChar(m[1]) && Lower(m)[2] == LowerChar(m[2]);
  }

  /** "txt" is not a supported extension. */
  lemma TxtUnsupported()
    ensures Lower("txt") !in SupportedExtensions
  {
    var t := "txt";
    assert Lower(t)[0] == 't';
  }

  /** The case-insensitive comparison and the last-dot rule: "a.MP4" and
      "x.txt.mp4" are accepted. */
  lemma AcceptedExamples()
    ensures AllowedFile("a.MP4")
    ensures AllowedFile("x.txt.mp4")
  {
    Mp4Supported();
    ExtensionOfSplit("a", "MP4");
    ExtensionOfSplit("x.txt", "mp4");
  }

  /** Only the last dot counts: "a.mp4.txt" is refused. */
  lemma LastDotRefuses()
    ensures !AllowedFile("a.mp4.txt")
  {
    ExtensionOfSplit("a.mp4", "txt");
    TxtUnsupported();
  }

  /** A name without a dot, or with nothing after its last dot, is refused. */
  lemma RefusesMissingExtension()
    ensures !AllowedFile("noext")
    ensures !AllowedFile("file.")
  {
    NoextHasNoDot();
    ExtensionOfSplit("file", "");
    EmptyUnsupported();
  }

  lemma NoextHasNoDot()
    ensures '.' !in "noext"
  {
    var n := "noext";
    assert n[0] != '.' && n[1] != '.' && n[2] != '.' && n[3] != '.' && n[4] != '.';
  }

  /** The empty extension is not supported. */
  lemma EmptyUnsupported()
    ensures Lower("") !in SupportedExtensions
  {
    assert Lower("") == "";
  }

  /** Python lower-cases KELVIN SIGN to 'k', so "a.m\U{212A}v" is stored as
      an "mkv" upload. */
  lemma KelvinSignAccepted()
    ensures AllowedFile("a.m\U{212A}v")
    ensures AdmittedExtension("a.m\U{212A}v") == "mkv"
  {
    var e := "m\U{212A}v";
    ExtensionOfSplit("a", e);
    assert Lower(e)[0] == LowerChar(e[0]) && Lower(e)[1] == LowerChar(e[1]) && Lower(e)[2] == LowerChar(e[2]);
    assert Lower(e) == "mkv";
  }

  predicate IsLowerHexDigit(c: char) {
    '0' <= c <= '9' || 'a' <= c <= 'f'
  }

  /** The text of `str(uuid.uuid4())`: 36 characters, lower-case hex digits
      in groups of 8-4-4-4-12 separated by '-', version digit '4' and a
      variant digit among 8, 9, a, b. */
  predicate IsUuid4Text(s: string) {
    && |s| == 36
    && (forall i :: 0 <= i < |s| ==>
          if i == 8 || i == 13 || i == 18 || i == 23 then s[i] == '-' else IsLowerHexDigit(s[i]))
    && s[14] == '4'
    && s[19] in "89ab"
  }

  /** A generated id is a single path component with a character other than
      '.', which is all the path code needs of it. */
  lemma Uuid4IsPlainName(s: string)
    requires IsUuid4Text(s)
    ensures '/' !in s && '.' !in s && HasNonDot(s)
  {
    assert s[0] != '.';
  }

  datatype Job = Job(inputPath: string, outputPath: string)

  /** What `open(input_path, "wb")` and `shutil.copyfileobj` did: both
      succeeded, the open failed (nothing created), or the copy failed after
      the open had created the file. */
  datatype WriteOutcome = Written | OpenFailed(reason: string) | CopyFailed(reason: string)

  datatype Reply = Accepted(fileId: string) | HttpError(status: int, detail: string)

  /** The reply, the filesystem afterwards, and the background job queued. */
  datatype UploadResult = UploadResult(reply: Reply, fs: set<string>, scheduled: Option<Job>)

  const UnsupportedDetail: string := "Unsupported file type."

  /** `f"Upload failed: {e}"` */
  function FailureDetail(e: string): string {
    "Upload failed: " + e
  }

  /** The handler after validation: derive both paths from the id, write the
      input, queue `run_whisper`. Any failure of the write surfaces as 500. */
  function Admit(fs: set<string>, filename: string, fileId: string, write: WriteOutcome): (r: UploadResult)
    requires AllowedFile(filename)
    ensures r.reply.Accepted? <==> write.Written?
    ensures r.scheduled.Some? <==> r.reply.Accepted?
    ensures r.reply.Accepted? ==>
      && r.reply.fileId == fileId
      && r.scheduled.value == Job(InputPath(fileId, AdmittedExtension(filename)), ArtifactPath(fileId))
    ensures r.reply.HttpError? ==> r.reply.status == 500
    ensures forall p :: p in r.fs <==>
      p in fs || (!write.OpenFailed? && p == InputPath(fileId, AdmittedExtension(filename)))
  {
    var job := Job(InputPath(fileId, AdmittedExtension(filename)), ArtifactPath(fileId));
    match write
    case Written => UploadResult(Accepted(fileId), fs + {job.inputPath}, Some(job))
    case OpenFailed(e) => UploadResult(HttpError(500, FailureDetail(e)), fs, None)
    case CopyFailed(e) => UploadResult(HttpError(500, FailureDetail(e)), fs + {job.inputPath}, None)
  }

  /** `upload_file` as written: the 400 raised for an unsupported name is
      caught by the handler's own `except Exception` and re-raised as 500,
      its text being `str()` of the first exception, "400: ...". */
  function UploadFile(fs: set<string>, filename: string, fileId: string, write: WriteOutcome): (r: UploadResult)
    ensures r.scheduled.Some? <==> r.reply.Accepted?
    ensures r.reply.Accepted? <==> AllowedFile(filename) && write.Written?
    ensures r.scheduled.Some? ==> r.scheduled.value.outputPath == ArtifactPath(fileId)
    ensures r.reply.HttpError? ==> r.reply.status == 500
    ensures !AllowedFile(filename) ==>
      r.fs == fs && r.reply.detail == FailureDetail("400: " + UnsupportedDetail)
  {
    if !AllowedFile(filename) then
      UploadResult(HttpError(500, FailureDetail("400: " + UnsupportedDetail)), fs, None)
    else
      Admit(fs, filename, fileId, write)
  }

  /** `upload_file` as evidently intended: an unsupported name is answered
      with the 400 raised for it; everything else is as written. */
  function UploadFileIntended(fs: set<string>, filename: string, fileId: string, write: WriteOutcome): (r: UploadResult)
    ensures r.scheduled.Some? <==> r.reply.Accepted?
    ensures r.reply.Accepted? <==> AllowedFile(filename) && write.Written?
    ensures !AllowedFile(filename) ==>
      r.fs == fs && r.reply == HttpError(400, UnsupportedDetail)
    ensures AllowedFile(filename) && r.reply.HttpError? ==> r.reply.status == 500
  {
    if !AllowedFile(filename) then
      UploadResult(HttpError(400, UnsupportedDetail), fs, None)
    else
      Admit(fs, filename, fileId, write)
  }

  /** The two handlers differ only on rejected names. */
  lemma IntendedAgreesOnAllowed(fs: set<string>, filename: string, fileId: string, write: WriteOutcome)
    ensures AllowedFile(filename) <==>
      UploadFile(fs, filename, fileId, write) == UploadFileIntended(fs, filename, fileId, write)
  {
  }

  /** The discrepancy: a refused name such as "notes.txt" is answered 500
      as written where 400 was meant. */
  lemma UnsupportedAnswered500(fs: set<string>, filename: string, fileId: string, write: WriteOutcome)
    requires !AllowedFile(filename)
    ensures UploadFile(fs, filename, fileId, write).reply.status == 500
    ensures UploadFileIntended(fs, filename, fileId, write).reply.status == 400
  {
  }

  /** The discrepancy on the name "notes.txt": 500 with the text of the
      swallowed 400, where the 400 itself was meant. */
  lemma NotesTxtAnswered500(fs: set<string>, fileId: string, write: WriteOutcome)
    ensures UploadFile(fs, "notes.txt", fileId, write).reply
      == HttpError(500, FailureDetail("400: " + UnsupportedDetail))
    ensures UploadFileIntended(fs, "notes.txt", fileId, write).reply
      == HttpError(400, UnsupportedDetail)
  {
    ExtensionOfSplit("notes", "txt");
    TxtUnsupported();
    assert !AllowedFile("notes.txt");
  }
}

=== FILE: whisper.dfy ===
/** `run_whisper`: after the external transcriber has run, find its
    subtitle file and put it at the job's artifact path, then delete the
    job's input on a best-effort basis. */
module Whisper {
  import opened Text
  import opened Paths

  /** What the external `whisper` command did: it failed (non-zero exit,
      missing executable) with the text of the error, or it exited cleanly
      having created some files. */
  datatype EngineRun = EngineFailed(reason: string) | EngineOk(created: set<string>)

  const NotGeneratedMessage: string := "SRT file not generated."

  /** The `FileNotFoundError` text of `os.listdir("")`: an output path
      without a '/' has the empty string as its directory. */
  const MissingDirMessage: string := "[Errno 2] No such file or directory: ''"

  /** A single path component, as `os.listdir` reports it. */
  predicate IsPlainName(n: string) {
    |n| > 0 && '/' !in n
  }

  /** `n` names a file in directory `dir`. */
  predicate InDir(fs: set<string>, dir: string, n: string) {
    IsPlainName(n) && Join(dir, n) in fs
  }

  /** `listing` is what `os.listdir(dir)` may return for `fs`: the names of
      the directory's files, in an order the operating system chooses. */
  ghost predicate ListsDir(fs: set<string>, dir: string, listing: seq<string>) {
    && (forall i :: 0 <= i < |listing| ==> InDir(fs, dir, listing[i]))
    && (forall n :: InDir(fs, dir, n) ==> n in listing)
  }

  /** `[f for f in listing if f.endswith('.srt')]` */
  function SrtFiles(listing: seq<string>): (r: seq<string>)
    ensures forall i :: 0 <= i < |r| ==> EndsWith(r[i], ".srt") && r[i] in listing
    ensures forall i :: 0 <= i < |listing| && EndsWith(listing[i], ".srt") ==> listing[i] in r
    ensures |r| > 0 ==>
      forall j :: 0 <= j < |listing| && EndsWith(listing[j], ".srt") ==> r[0] in listing[..j + 1]
  {
    if |listing| == 0 then []
    else if EndsWith(listing[0], ".srt") then [listing[0]] + SrtFiles(listing[1..])
    else
      var rest := SrtFiles(listing[1..]);
      assert forall j :: 1 <= j <= |listing| ==> listing[1..][..j - 1] == listing[1..j];
      rest
  }

  /** The outcome of the three-way search: the directory afterwards and the
      file renamed onto the artifact path, if any; or nothing was found. */
  datatype Resolution = Resolved(fs: set<string>, moved: Option<string>) | NotGenerated

  /** `os.rename(src, dst)` on an existing `src`. */
  function Rename(fs: set<string>, src: string, dst: string): set<string> {
    fs - {src} + {dst}
  }

  /** A rename leaves every path other than its two ends alone. */
  lemma RenameFrames(fs: set<string>, src: string, dst: string, p: string)
    requires p != dst
    ensures p in Rename(fs, src, dst) <==> p in fs && p != src
  {
  }

  /** backend/main.py:44-62: take the expected output (renaming it
      when it is not already the artifact), else accept an artifact already
      in place, else rename the first ".srt" file listed, else fail. */
  function Resolve(fs: set<string>, inputPath: string, outputPath: string, listing: seq<string>): (r: Resolution)
    requires ListsDir(fs, Dirname(outputPath), listing)
    ensures r.Resolved? ==> outputPath in r.fs
    ensures r.Resolved? && r.moved.None? ==> r.fs == fs
    ensures r.Resolved? && r.moved.Some? ==>
      var src := r.moved.value;
      src in fs && src != outputPath && EndsWith(src, ".srt") && r.fs == Rename(fs, src, outputPath)
    ensures var generated := GeneratedPath(inputPath, outputPath);
      generated in fs ==>
        r == (if generated != outputPath then Resolved(Rename(fs, generated, outputPath), Some(generated))
              else Resolved(fs, None))
    ensures GeneratedPath(inputPath, outputPath) !in fs && outputPath in fs ==> r == Resolved(fs, None)
  {
    var generated := GeneratedPath(inputPath, outputPath);
    if generated in fs then
      if generated != outputPath then Resolved(Rename(fs, generated, outputPath), Some(generated))
      else Resolved(fs, None)
    else if outputPath in fs then
      Resolved(fs, None)
    else
      FirstSrtFallback(fs, outputPath, listing)
  }

  /** The last resort of resolution: rename the first ".srt" file the
      directory listing shows onto the artifact path, if there is one. */
  function FirstSrtFallback(fs: set<string>, outputPath: string, listing: seq<string>): (r: Resolution)
    requires ListsDir(fs, Dirname(outputPath), listing)
    requires outputPath !in fs
    ensures r.NotGenerated? <==> |SrtFiles(listing)| == 0
    ensures r.Resolved? ==>
      var found := Join(Dirname(outputPath), SrtFiles(listing)[0]);
      && found in fs && found != outputPath && EndsWith(found, ".srt")
      && r == Resolved(Rename(fs, found, outputPath), Some(found))
  {
    var srtDir := Dirname(outputPath);
    var srtFiles := SrtFiles(listing);
    if |srtFiles| > 0 then
      var found := Join(srtDir, srtFiles[0]);
      assert InDir(fs, srtDir, srtFiles[0]);
      EndsWithTransitive(found, srtFiles[0], ".srt");
      Resolved(Rename(fs, found, outputPath), Some(found))
    else
      NotGenerated
  }

  /** The ".srt" filter over a listing is non-empty exactly when the listed
      directory holds some ".srt" file. */
  lemma SrtFilesNonEmptyIff(fs: set<string>, dir: string, listing: seq<string>)
    requires ListsDir(fs, dir, listing)
    ensures |SrtFiles(listing)| > 0 <==> exists n :: InDir(fs, dir, n) && EndsWith(n, ".srt")
  {
    var srtFiles := SrtFiles(listing);
    if exists n :: InDir(fs, dir, n) && EndsWith(n, ".srt") {
      var n :| InDir(fs, dir, n) && EndsWith(n, ".srt");
      assert n in listing;
      var i :| 0 <= i < |listing| && listing[i] == n;
      assert n in srtFiles;
    }
    if |srtFiles| > 0 {
      assert srtFiles[0] in listing;
      assert InDir(fs, dir, srtFiles[0]);
    }
  }

  /** Resolution fails exactly when neither the expected output nor the
      artifact exists and the directory holds no ".srt" file at all. */
  lemma NotGeneratedIff(fs: set<string>, inputPath: string, outputPath: string, listing: seq<string>)
    requires ListsDir(fs, Dirname(outputPath), listing)
    ensures Resolve(fs, inputPath, outputPath, listing).NotGenerated? <==>
      && GeneratedPath(inputPath, outputPath) !in fs
      && outputPath !in fs
      && !exists n :: InDir(fs, Dirname(outputPath), n) && EndsWith(n, ".srt")
  {
    var r := Resolve(fs, inputPath, outputPath, listing);
    if GeneratedPath(inputPath, outputPath) in fs || outputPath in fs {
      assert r.Resolved?;
    } else {
      SrtFilesNonEmptyIff(fs, Dirname(outputPath), listing);
      assert r.NotGenerated? <==> |SrtFiles(listing)| == 0;
    }
  }

  /** Resolution touches at most two entries: the renamed ".srt" file and
      the artifact path. Every other file of the filesystem is kept. */
  lemma ResolveFramesOthers(fs: set<string>, inputPath: string, outputPath: string, listing: seq<string>, p: string)
    requires ListsDir(fs, Dirname(outputPath), listing)
    requires Resolve(fs, inputPath, outputPath, listing).Resolved?
    requires p != outputPath
    ensures var r := Resolve(fs, inputPath, outputPath, listing);
      p in r.fs <==> p in fs && r.moved != Some(p)
  {
    var r := Resolve(fs, inputPath, outputPath, listing);
    match r.moved
    case None =>
    case Some(src) => RenameFrames(fs, src, outputPath, p);
  }

  /** With neither the expected output nor the artifact present, the first
      listed ".srt" file, whoever it belongs to, becomes the artifact. */
  lemma FallbackTakesFirstSrt(fs: set<string>, inputPath: string, outputPath: string,
                              listing: seq<string>, j: nat)
    requires ListsDir(fs, Dirname(outputPath), listing)
    requires GeneratedPath(inputPath, outputPath) !in fs && outputPath !in fs
    requires j < |listing| && EndsWith(listing[j], ".srt")
    requires forall i :: 0 <= i < j ==> !EndsWith(listing[i], ".srt")
    ensures var found := Join(Dirname(outputPath), listing[j]);
      Resolve(fs, inputPath, outputPath, listing) == Resolved(Rename(fs, found, outputPath), Some(found))
  {
    var srtFiles := SrtFiles(listing);
    assert listing[j] in srtFiles;
    assert srtFiles[0] in listing[..j + 1];
    var i :| 0 <= i <= j && listing[..j + 1][i] == srtFiles[0];
    assert srtFiles[0] == listing[j];
  }

  /** When the expected output is the artifact path itself and it exists,
      resolution changes nothing. */
  lemma NoRenameWhenInPlace(fs: set<string>, inputPath: string, outputPath: string, listing: seq<string>)
    requires ListsDir(fs, Dirname(outputPath), listing)
    requires GeneratedPath(inputPath, outputPath) == outputPath
    requires outputPath in fs
    ensures Resolve(fs, inputPath, outputPath, listing) == Resolved(fs, None)
  {
  }

  /** The end of `run_whisper`: either it returns with the filesystem
      afterwards, or it raises (and re-raises) with the error text. */
  datatype JobOutcome = Completed(fs: set<string>) | Raised(message: string, fs: set<string>)

  /** `run_whisper(input_path, output_path)` after the transcriber ran: the
      debug `os.listdir` of the output directory, which raises when that
      directory is "", then resolution, then `os.remove(input_path)` whose
      failure (`removed` is false) is swallowed. The removal sits on the
      success path only. */
  function RunWhisper(fs: set<string>, inputPath: string, outputPath: string,
                      engine: EngineRun, listing: seq<string>, removed: bool): (r: JobOutcome)
    requires engine.EngineOk? ==> ListsDir(fs + engine.created, Dirname(outputPath), listing)
    ensures r.Raised? ==> fs <= r.fs
    ensures r.Raised? ==>
      if engine.EngineFailed? then r == Raised(engine.reason, fs)
      else if Dirname(outputPath) == "" then r == Raised(MissingDirMessage, fs + engine.created)
      else r == Raised(NotGeneratedMessage, fs + engine.created)
    ensures r.Completed? ==> engine.EngineOk? && Dirname(outputPath) != ""
    ensures r.Completed? && removed ==> inputPath !in r.fs
    ensures r.Completed? ==> (outputPath in r.fs <==> outputPath != inputPath || !removed)
    ensures r.Completed? ==>
      var res := Resolve(fs + engine.created, inputPath, outputPath, listing);
      res.Resolved? && r.fs == (if removed then res.fs - {inputPath} else res.fs)
  {
    if engine.EngineFailed? then Raised(engine.reason, fs)
    else
      var after := fs + engine.created;
      if Dirname(outputPath) == "" then Raised(MissingDirMessage, after)
      else
      var res := Resolve(after, inputPath, outputPath, listing);
      if res.NotGenerated? then Raised(NotGeneratedMessage, after)
      else Completed(if removed then res.fs - {inputPath} else res.fs)
  }

  /** A clean transcriber run under a real directory completes with what
      resolution found, less the input when its deletion succeeds. */
  lemma CompletesWithResolution(fs: set<string>, inputPath: string, outputPath: string,
                                created: set<string>, listing: seq<string>, removed: bool, res: Resolution)
    requires ListsDir(fs + created, Dirname(outputPath), listing)
    requires Dirname(outputPath) != ""
    requires Resolve(fs + created, inputPath, outputPath, listing) == res && res.Resolved?
    ensures RunWhisper(fs, inputPath, outputPath, EngineOk(created), listing, removed)
      == Completed(if removed then res.fs - {inputPath} else res.fs)
  {
  }

  /** A failed deletion of the input never turns a completed job into an
      error, nor an error into a completion. */
  lemma CleanupIsBestEffort(fs: set<string>, inputPath: string, outputPath: string,
                            engine: EngineRun, listing: seq<string>)
    requires engine.EngineOk? ==> ListsDir(fs + engine.created, Dirname(outputPath), listing)
    ensures RunWhisper(fs, inputPath, outputPath, engine, listing, true).Completed? <==>
            RunWhisper(fs, inputPath, outputPath, engine, listing, false).Completed?
    ensures RunWhisper(fs, inputPath, outputPath, engine, listing, false).Completed? ==>
            RunWhisper(fs, inputPath, outputPath, engine, listing, true).fs ==
            RunWhisper(fs, inputPath, outputPath, engine, listing, false).fs - {inputPath}
  {
  }

  /** `run_whisper` raises exactly when the transcriber failed, the output
      path has no directory part, or resolution found nothing; on that path
      the input is still in place. */
  lemma RaisesIff(fs: set<string>, inputPath: string, outputPath: string,
                  engine: EngineRun, listing: seq<string>, removed: bool)
    requires engine.EngineOk? ==> ListsDir(fs + engine.created, Dirname(outputPath), listing)
    ensures var r := RunWhisper(fs, inputPath, outputPath, engine, listing, removed);
      r.Raised? <==>
        engine.EngineFailed? || Dirname(outputPath) == "" ||
        (var after := fs + engine.created;
         && GeneratedPath(inputPath, outputPath) !in after
         && outputPath !in after
         && !exists n :: InDir(after, Dirname(outputPath), n) && EndsWith(n, ".srt"))
    ensures var r := RunWhisper(fs, inputPath, outputPath, engine, listing, removed);
      r.Raised? && inputPath in fs ==> inputPath in r.fs
  {
    if engine.EngineOk? && Dirname(outputPath) != "" {
      NotGeneratedIff(fs + engine.created, inputPath, outputPath, listing);
    }
  }
}
